=== FILE: README.md ===
# Listing-text pipeline of the programme-guide sheet tool

A Dafny model of the text pipeline in `app.py`. The pipeline turns one
programme-guide entry into short listing texts that fit character budgets:

- a title, preferring its Latin form;
- a cast field, normalised to names joined by `、`;
- four status marks: 字 (subtitled), デ (dubbed), 新 (new) and 終 (final).

It covers these functions of `app.py`:

- `get_cell`, which reads one cell of the sheet;
- `prefer_latin_title`;
- `normalize_cast` and `cast_first_n`;
- `trim_to_len`;
- `compose_text`;
- `pick_title_for_length`;
- `generate_ideas`.

Strings are `seq<char>`, sequences of Unicode scalar values. A Python
`str` is a sequence of code points, so the two agree except on lone
surrogates (see "## Left out"). Lengths count characters.

The modules are:

| file | module | covers |
|---|---|---|
| `text.dfy` | `Text` | character classes; `str.strip()` |
| `cells.dfy` | `Cells` | `get_cell` over a grid of cell texts |
| `title.dfy` | `Title` | `prefer_latin_title`; both regular-expression substitutions as scans |
| `cast.dfy` | `Cast` | `re.split` on the delimiter class; `normalize_cast`; `cast_first_n` |
| `compose.dfy` | `Compose` | `compose_text` |
| `ideas.dfy` | `Ideas` | `trim_to_len`, `pick_title_for_length`, `generate_ideas` |

Whitespace is one concrete class: the characters for which Python's
`str.isspace()` holds. They are U+0009–000D, U+001C–001F, U+0020, U+0085,
U+00A0, U+1680, U+2000–200A, U+2028, U+2029, U+202F, U+205F and U+3000.
The same class serves both `strip()` and the regular-expression class `\s`.

The regular expressions are explicit functions:

- **`re.split` on `[、，,/／・\s]+`.** `Split` reads the string one character
  at a time and yields the pieces, including empty pieces at either end. The
  lemma `SplitThenFilter` shows that dropping the empty pieces yields
  `Names`: the maximal runs of non-delimiters.
- **First substitution** (`[（(][^）)]*[）)]\s*$`). It removes the leftmost
  bracket group whose first closer is the last non-whitespace character.
- **Second substitution** (`\s*[（(][^）)]*[）)]\s*` → `" "`). A
  left-to-right scan replaces every non-overlapping match by one space.

A title without an ASCII letter is still stripped: app.py:34 strips before
the letter test at app.py:37, and the model follows the code.

An empty cast yields at most one idea.
`EmptyListingGivesNoIdea` shows an empty title without marks gives none at
any budget. A budget of zero or less also gives none.

## Model

| member | source | states |
|---|---|---|
| Text.Strip | app.py:27 | `str.strip()`: the result has no leading and no trailing whitespace and is no longer than the input |
| Text.StripSurroundings | app.py:27 | only whitespace lies before and after the slice that `strip()` keeps |
| Text.StripOfStripped | app.py:34 | a string without surrounding whitespace is its own strip |
| Text.StripIdempotent | app.py:34 | stripping twice is stripping once |
| Text.StripEmptyIff | app.py:34-36 | the strip is empty exactly when the input is empty or all whitespace (`if not s`) |
| Text.SkipSpace | app.py:39 | the greedy `\s*` from an index: only whitespace is skipped, and it stops at the first non-whitespace |
| Text.BackSpace | app.py:38 | the `\s*$` tail: only whitespace is dropped from the end, and it stops at the last non-whitespace |
| Cells.GetCell | app.py:24-30 | an out-of-range position reads as ""; a cell whose stripped text is "nan" in any letter case reads as ""; otherwise the stripped text; never "nan", always stripped |
| Cells.IsNanText | app.py:28 | `v.lower() == "nan"` |
| Cells.NanSpellings | app.py:28 | the test accepts exactly the eight letter-case spellings of "nan" |
| Cells.GetCellStable | app.py:27-28 | a value already read reads back unchanged |
| Cells.NanCellReadsEmpty | app.py:28 | " NaN " reads as the empty text |
| Cells.GetCellNonEmpty | app.py:24-30 | a non-empty read comes from an in-range cell and is its stripped text |
| Title.FirstCloser | app.py:38-39 | `[^）)]*[）)]`: the first closer at or after an index, with no closer before it; none means no closer remains |
| Title.FindGroupStart | app.py:38 | the leftmost opener in a range whose first later closer is the given one; no earlier index opens such a group |
| Title.TrailingGroupAt | app.py:38 | `[（(][^）)]*[）)]\s*$` matches at `p`: an opener, no closer until the last non-whitespace character, which is a closer |
| Title.RemoveTrailingReading | app.py:38 | the first substitution: the result is a prefix of the input; when it is shorter, a trailing group starts where it ends and none starts earlier; when it is unchanged, no trailing group exists |
| Title.RemoveTrailingReadingOfOpenEnd | app.py:38 | a stripped title that does not end in a closer passes the first substitution unchanged |
| Title.RemoveTrailingReadingOfNoGroup | app.py:38 | a title without bracket groups passes the first substitution unchanged |
| Title.GroupMatch | app.py:39 | a match of `\s*[（(][^）)]*[）)]\s*` at the start consumes at least one character and stays within the string |
| Title.GroupShape | app.py:39 | `s[..e]` is a greedy match of `\s*[（(][^）)]*[）)]\s*`, with the opener at `w`, the closer at `j`, and a trailing `\s*` that cannot be extended |
| Title.GroupShapeDetermined | app.py:39 | a match at the start is unique: its opener follows the leading whitespace, its closer is the first after the opener, and it ends at the first non-whitespace after the closer |
| Title.GroupShapeOfScan | app.py:39 | the positions the scan finds form a match |
| Title.GroupMatchExact | app.py:39 | the scan reports a match exactly when a prefix has the shape of one (whitespace, opener, non-closers, closer, whitespace up to a non-whitespace or the end), and then its length |
| Title.ReplaceReadings | app.py:39 | the second substitution never lengthens the title |
| Title.PlainStep | app.py:39 | no match starts at a character of a run that has no opener and ends in a non-whitespace character, so the scan copies that character |
| Title.ReplaceReadingsOfPlain | app.py:39 | text with no opener that ends in a non-whitespace character passes the scan unchanged |
| Title.ReplaceGroup | app.py:39 | a bracket group with the whitespace around it, up to the next non-whitespace, becomes one space, and the scan goes on after it |
| Title.ReplaceReadingAfter | app.py:39 | for a plain text `a`, a group with its whitespace, and a rest `b`: the result is `a`, one space, then the substitution applied to `b` |
| Title.ReplaceReadingsRemovesGroups | app.py:39 | after the second substitution no opener is followed by a closer |
| Title.ReplaceReadingsOfNoGroup | app.py:39 | a title without bracket groups passes the second substitution unchanged |
| Title.NoMatchWithoutGroup | app.py:39 | the second pattern cannot match where no opener is followed by a closer |
| Title.DropReadings | app.py:38-39 | both substitutions, each followed by a strip: the result is stripped and holds no bracket group |
| Title.DropReadingsOfNoGroup | app.py:38-39 | a stripped title without groups comes through both substitutions unchanged |
| Title.PreferLatinTitle | app.py:32-40 | `prefer_latin_title`: the result is stripped |
| Title.PreferLatinOfBlank | app.py:34-36 | empty or all-whitespace input gives "" |
| Title.PreferLatinOfNonLatin | app.py:34-37 | input without an ASCII letter is only stripped |
| Title.PreferLatinRemovesGroups | app.py:37-39 | input with an ASCII letter comes out with no opener followed by a closer |
| Title.PreferLatinOfNoGroup | app.py:34-40 | input without bracket groups is only stripped, Latin or not |
| Title.PreferLatinIdempotent | app.py:32-40 | applying `prefer_latin_title` twice is applying it once |
| Title.LettersSurviveStrip | app.py:34-37 | `LATIN.search` sees the same answer on the stripped and on the raw title |
| Title.PreferLatinOfStripped | app.py:35-39 | a stripped title with an ASCII letter goes through exactly the two substitutions |
| Title.DropTrailingReading | app.py:38-39 | when the first substitution leaves a clean prefix, the second changes nothing |
| Title.RemoveReadingAfter | app.py:38 | a bracketed reading at the very end, with no opener before it, is cut off |
| Title.PreferLatinDropsReading | app.py:32-40 | a bracket-free Latin title followed by one bracketed reading comes out as the Latin title alone |
| Title.DoctorPriceTitle | app.py:32-40 | "DOCTOR PRICE（ドクタープライス）" gives "DOCTOR PRICE" |
| Title.PreferLatinOfOpenEnd | app.py:37-39 | a stripped Latin title that does not end in a closer goes through the second substitution only |
| Title.PreferLatinJoinsAroundReading | app.py:32-40 | a bracket group inside a Latin title, with the whitespace around it, becomes one space between the text before it and the text after it |
| Title.ReadingBetweenWords | app.py:32-40 | "A（x）B" gives "A B" |
| Text.IsSpace | app.py:34 | the whitespace class shared by `strip()` and `\s`: the characters for which `str.isspace()` holds |
| Text.IsDelimiter | app.py:43 | the class `[、，,/／・\s]` |
| Text.IsOpener | app.py:38-39 | the class `[（(]` |
| Text.IsCloser | app.py:38-39 | the class `[）)]` |
| Text.HasAsciiLetter | app.py:37 | `LATIN.search(s)` finds a match: some character is in `[A-Za-z]` |
| Cast.Split | app.py:43 | `re.split` on delimiter runs: at least one piece, none holds a delimiter, the first is empty exactly when the input is empty or starts with a delimiter; `SplitOfWord`, `SplitOfRun` and `SplitAtRun` fix the pieces themselves |
| Cast.SplitOfWord | app.py:43 | a delimiter-free text is a single piece, itself |
| Cast.SplitOfRun | app.py:43 | a delimiter run at the start gives one empty piece, then the pieces of the rest |
| Cast.SplitAtRun | app.py:43 | a maximal delimiter run between `a` and `b` separates them: the pieces are those of `a` followed by those of `b`; with `SplitOfWord` this fixes every piece as a run between delimiter runs |
| Cast.SplitSharedHead | app.py:43 | a non-delimiter end of `a` joins the first piece of what follows, so a split law for `a[1..]` carries over to `a` |
| Cast.Names | app.py:43-44 | the names of a cast field: each non-empty and delimiter-free; a field that starts with a non-delimiter has a first name starting with that character |
| Cast.NonEmpty | app.py:44 | `[p for p in parts if p]`: every kept piece is non-empty and one of the pieces, and every non-empty piece is kept; `NonEmptyAppend` and `NonEmptyOfOne` add order and count |
| Cast.NonEmptyAppend | app.py:44 | the filter distributes over concatenation; with `NonEmptyOfOne` the result is the non-empty pieces in their order, each once |
| Cast.NonEmptyOfOne | app.py:44 | one piece is kept, once, exactly when it is non-empty |
| Cast.Join | app.py:44 | `"、".join`: the first name is a prefix, and the length is the names' total plus one separator between each two |
| Cast.SplitThenFilter | app.py:43-44 | splitting and dropping empty pieces yields exactly the names |
| Cast.NamesAtDelimiter | app.py:43 | the names of `a + [d] + b` are those of `a` followed by those of `b` |
| Cast.NamesAcrossTwoDelimiters | app.py:43 | a run of two delimiters between two names is one boundary: exactly those two names |
| Cast.NamesOfWord | app.py:43 | a delimiter-free string is one name, or none when empty |
| Cast.NamesIgnoreSurroundingDelimiters | app.py:43-44 | delimiters before or after a string add no name |
| Cast.NamesOfStrip | app.py:43 | stripping before splitting changes no name |
| Cast.NamesOfJoin | app.py:44 | splitting a `、`-join of names gives the names back |
| Cast.JoinIsCanonical | app.py:44 | a join of names has every delimiter a `、` between two name characters |
| Cast.CanonicalIsJoin | app.py:44 | a canonical cast is the join of its own names |
| Cast.ConcatNames | app.py:43-44 | the names, run together, are exactly the non-delimiter characters in order |
| Cast.NormalizeCast | app.py:42-44 | `normalize_cast`: the result is the `、`-join of the names of the field |
| Cast.NormalizeKeepsNames | app.py:42-44 | the result has the same names, in the same order |
| Cast.NormalizeIsCanonical | app.py:42-44 | no leading or trailing `、`, no `、、`, no other delimiter |
| Cast.NormalizeKeepsCharacters | app.py:42-44 | only delimiters are dropped: the non-delimiter characters stay, in order |
| Cast.NormalizeIdempotent | app.py:42-44 | normalising twice is normalising once |
| Cast.NormalizedIffCanonical | app.py:42-44 | a cast is left unchanged exactly when it has the canonical shape |
| Cast.NormalizeMixedSeparators | app.py:43-44 | two names around `，` and a space become two names around one `、` |
| Cast.CastFirstN | app.py:46-50 | `cast_first_n`: the `、`-join of the first min(n, k) of the cast's k names |
| Cast.CastFirstNEmpty | app.py:47-48 | an empty cast, or n = 0, gives "" |
| Cast.CastFirstNNames | app.py:49-50 | the result's names are the first min(n, k) names, and its shape is canonical |
| Cast.CastFirstNPrefix | app.py:46-50 | the result is a prefix of the normalised cast |
| Cast.CastFirstNOfCanonical | app.py:46-50 | a canonical cast with at most n names comes back unchanged |
| Cast.FirstTwoOfThree | app.py:77 | of three names joined by `、`, the first two come back joined by `、` |
| Cast.JoinPrefix | app.py:50 | the join of the first names is a prefix of the join of all |
| Compose.MarkText | app.py:60-61 | one mark character when its flag is set, nothing otherwise |
| Compose.AppendCast | app.py:63-64 | appending only a non-empty cast is appending the cast |
| Compose.Head | app.py:57-59 | the head has one character per set head mark: 字 first, デ last |
| Compose.ComposeText | app.py:55-65 | `compose_text`: the length is the title's plus the cast's plus the number of marks set |
| Compose.ComposeParts | app.py:55-65 | the text is the head, 新, the title, 終 and the cast, in that order |
| Compose.ComposeHeadLayout | app.py:57-62 | 字 at the start, デ closing the head, 新 right after it |
| Compose.ComposeTitleLayout | app.py:60-65 | the title right after the marks that precede it, then 終, with the cast at the very end |
| Compose.ComposeAppendsCast | app.py:62-65 | composing with a cast is composing without one and appending the cast |
| Compose.ComposeWithoutMarks | app.py:55-65 | with every mark off the text is the title followed by the cast |
| Compose.HeadOrder | app.py:58-60 | with both head marks set the text starts 字デ, and then 新 when set |
| Compose.ComposeNewOnly | app.py:60-62 | with only 新 set and no cast the text is 新 and the title |
| Ideas.TrimToLen | app.py:52-53 | `trim_to_len`: "" for n ≤ 0; otherwise a prefix of length min(\|s\|, n), and `s` itself when \|s\| ≤ n |
| Ideas.TrimIdempotent | app.py:52-53 | trimming a trimmed text to the same budget changes nothing |
| Ideas.TrimTwice | app.py:52-53 | trimming to a larger budget, then to a smaller one, is trimming to the smaller one |
| Ideas.TrimOfAppend | app.py:52-53 | text past the budget does not change the trimmed result |
| Ideas.PickTitleForLength | app.py:67-71 | the short title when L ≤ 10 and it is non-empty, the main title otherwise |
| Ideas.PickShortIff | app.py:67-71 | for distinct titles, the short one is chosen exactly when L ≤ 10 and it is non-empty |
| Ideas.FirstIndex | app.py:83 | the first position of a text in a list, which does not occur before it |
| Ideas.KeepFirst | app.py:80-84 | the dedup loop: no longer than its input; entries non-empty and taken from it; every non-empty input kept; first occurrences in input order; no repeats |
| Ideas.KeepFirstOfConstant | app.py:80-84 | copies of one text keep that text once, or nothing when it is empty |
| Ideas.KeepFirstSnoc | app.py:81-84 | one loop step: a text is appended when it is non-empty and not yet kept |
| Ideas.Trimmed | app.py:82 | every candidate trimmed to the budget, in order |
| Ideas.TrimmedStep | app.py:81-82 | trimming one more candidate appends its trimmed text |
| Ideas.FitIdeas | app.py:80-85 | the loop over any candidate list: no more ideas than candidates, none empty, none over the budget, no two alike |
| Ideas.FitOfNoBudget | app.py:82-83 | a budget ≤ 0 leaves no idea |
| Ideas.FitSources | app.py:81-84 | every idea is some candidate trimmed to the budget, hence a prefix of it |
| Ideas.FitComplete | app.py:81-84 | every candidate that does not trim to "" is represented |
| Ideas.FitInCandidateOrder | app.py:81-84 | ideas come in the order of the candidates they first arise from |
| Ideas.FitIdeasLoop | app.py:80-85 | the loop of `generate_ideas` over the candidates, statement by statement, computes `FitIdeas` |
| Ideas.FitOfSame | app.py:80-84 | candidates that all trim to one text yield it alone, or nothing when it is empty |
| Ideas.FitOfCommonPrefix | app.py:80-84 | candidates sharing a prefix at least as long as the budget yield that prefix cut to the budget, alone |
| Ideas.Candidates | app.py:75-79 | exactly three candidates |
| Ideas.CandidatesExtendBase | app.py:75-79 | every candidate starts with the title and its marks composed without cast |
| Ideas.IdeaCandidates | app.py:74-79 | the three candidates for the title chosen by the budget |
| Ideas.GenerateIdeas | app.py:73-85 | `generate_ideas`: at most three ideas, none empty, none over the budget, pairwise distinct |
| Ideas.IdeasOfNoBudget | app.py:73-85 | a budget ≤ 0 gives no idea |
| Ideas.IdeasFromCandidates | app.py:73-85 | every idea is a candidate cut to the budget and a prefix of it; no candidate that cuts to a non-empty text is lost |
| Ideas.IdeasInCandidateOrder | app.py:75-84 | ideas keep candidate order |
| Ideas.IdeasOfEmptyCast | app.py:75-84 | an empty cast gives at most one idea |
| Ideas.EmptyListingGivesNoIdea | app.py:73-85 | an empty title without marks and without cast gives no idea at any budget |
| Ideas.IdeasWithinMarkedTitle | app.py:73-85 | a budget in (0, marks + title] gives exactly one idea: the marked title cut to the budget |
| Ideas.DoctorPriceExample | app.py:73-85 | "DOCTOR PRICE" marked 新, with no short title and any cast, at budget 10 gives ["新DOCTOR PR"] |

## Left out

- The Streamlit user interface (app.py:87-160): widgets, checkboxes, buttons, rendering and `st.stop`. It is presentation glue.
- Reading the workbook with `pd.read_excel` and pandas' `str()` conversion of cell values (app.py:27, app.py:119-123). These are library calls. The grid is modelled as rows of cell texts already converted to strings.
- The exception path of `get_cell` is modelled only as an out-of-range position. Negative indices never occur, because the fixed positions (app.py:9-17) are all non-negative.
- The fixed cell positions (app.py:9-17) and the wiring from the sheet to `generate_ideas` (app.py:124-153). They are constants and UI code.
- CSV export with a UTF-8 byte-order mark, and the download button (app.py:155-160). This is I/O.
- Parsing the comma-separated budget list with `int()` (app.py:92-97). It is input validation and depends on Python's integer-literal rules.
- `None` arguments (`title_raw or ""`, `cast_text or ""`): the model takes strings only, so `None` behaves as the empty string.
- Python's negative slice bounds in `arr[:n]`: `n` is a natural number here. The only caller passes 2.
- Display width: truncation counts code points, as `len` does.
- Cells.IsNanText: lower-cases ASCII letters only. No other character lower-cases to `n` or `a`, so the comparison with "nan" is unaffected.
- Ideas.GenerateIdeas: its own contract states the bounds and distinctness only. Sources, completeness and order are in `IdeasFromCandidates` and `IdeasInCandidateOrder`. The empty-budget case is in `IdeasOfNoBudget`.
- Title.GroupMatch: its own contract bounds the match only. `GroupMatchExact` states when the pattern matches and where the match ends.
- Title.ReplaceReadings: its own contract bounds the length only. What the scan keeps and writes is stated by `ReplaceReadingsOfPlain`, `ReplaceGroup`, `ReplaceReadingAfter`, `ReplaceReadingsRemovesGroups` and `ReplaceReadingsOfNoGroup`.
- Ideas.Candidates: its contract gives the number of candidates only. Their shape is stated by `CandidatesExtendBase` and by the examples.
- Ideas.IdeaCandidates: its contract gives the number of candidates only, for the same reason.
- Lone surrogates (U+D800–DFFF): a Python `str` can hold them and a Dafny `char` cannot. The model covers only strings without them. XML, the format inside an `.xlsx` workbook, cannot carry them either.

=== FILE: cast.dfy ===
/**
 Cast normalisation (app.py:42-50): a free-text cast field is split on runs
 of the delimiter class `[、，,/／・\s]`, empty pieces are dropped, and the
 names are rejoined with the ideographic comma.
 */
module Cast {
  import opened Text

  /** A string containing no delimiter character. */
  predicate NoDelimiter(s: string) {
    forall i :: 0 <= i < |s| ==> !IsDelimiter(s[i])
  }

  /** A string made of delimiter characters only. */
  predicate OnlyDelimiters(s: string) {
    forall i :: 0 <= i < |s| ==> IsDelimiter(s[i])
  }

  /** A cast name as it survives splitting: non-empty and delimiter-free. */
  predicate IsName(s: string) {
    s != [] && NoDelimiter(s)
  }

  predicate AllNames(ts: seq<string>) {
    forall k :: 0 <= k < |ts| ==> IsName(ts[k])
  }

  /** `re.split(r"[、，,/／・\s]+", s)`, read one character at a time: a
      non-delimiter extends the current piece, and a maximal run of
      delimiters closes it. A string that starts (ends) with a delimiter run
      has an empty first (last) piece, and the empty string splits into one
      empty piece. */
  function Split(s: string): (parts: seq<string>)
    ensures |parts| >= 1
    ensures forall k :: 0 <= k < |parts| ==> NoDelimiter(parts[k])
    ensures parts[0] == [] <==> s == [] || IsDelimiter(s[0])
    decreases |s|
  {
    if s == [] then [[]]
    else
      var p := Split(s[1..]);
      if !IsDelimiter(s[0]) then [[s[0]] + p[0]] + p[1..]
      else if |s| > 1 && IsDelimiter(s[1]) then p  // the run goes on
      else [[]] + p
  }

  /** A delimiter-free string is a single piece, empty or not. */
  lemma {:induction false} SplitOfWord(w: string)
    requires NoDelimiter(w)
    ensures Split(w) == [w]
    decreases |w|
  {
    if w != [] {
      SplitOfWord(w[1..]);
      assert [w[0]] + w[1..] == w;
    }
  }

  /** A maximal delimiter run at the start closes an empty first piece. */
  lemma {:induction false} SplitOfRun(r: string, b: string)
    requires r != [] && OnlyDelimiters(r)
    requires b == [] || !IsDelimiter(b[0])
    ensures Split(r + b) == [[]] + Split(b)
    decreases |r|
  {
    var s := r + b;
    assert s[1..] == r[1..] + b;
    if |r| > 1 {
      assert IsDelimiter(s[1]);
      SplitOfRun(r[1..], b);
    } else {
      assert s[1..] == b;
    }
  }

  /** A maximal delimiter run splits the text into the pieces before it and
      the pieces after it. */
  lemma {:induction false} SplitAtRun(a: string, r: string, b: string)
    requires a == [] || !IsDelimiter(a[|a| - 1])
    requires r != [] && OnlyDelimiters(r)
    requires b == [] || !IsDelimiter(b[0])
    ensures Split(a + r + b) == Split(a) + Split(b)
    decreases |a|
  {
    if a == [] {
      assert a + r + b == r + b;
      SplitOfRun(r, b);
    } else {
      var a' := a[1..];
      assert a' == [] || a'[|a'| - 1] == a[|a| - 1];
      SplitAtRun(a', r, b);
      assert a + r + b == a + (r + b) && a' + r + b == a' + (r + b);
      SplitSharedHead(a, r + b, Split(b));
    }
  }

  /** Splitting `a + t` reads `a` as splitting `a` alone does, as long as
      `a` does not end inside a delimiter run. */
  lemma SplitSharedHead(a: string, t: string, x: seq<string>)
    requires a != [] && !IsDelimiter(a[|a| - 1])
    requires Split(a[1..] + t) == Split(a[1..]) + x
    ensures Split(a + t) == Split(a) + x
  {
    if IsDelimiter(a[0]) {
      SharedDelimiterHead(a, t, x);
    } else {
      SharedNameHead(a, t, x);
    }
  }

  lemma SharedNameHead(a: string, t: string, x: seq<string>)
    requires a != [] && !IsDelimiter(a[0])
    requires Split(a[1..] + t) == Split(a[1..]) + x
    ensures Split(a + t) == Split(a) + x
  {
    var s := a + t;
    assert s[0] == a[0] && s[1..] == a[1..] + t;
    var p, q := Split(a[1..] + t), Split(a[1..]);
    var h := [a[0]] + q[0];
    assert Split(s) == [[a[0]] + p[0]] + p[1..];
    assert Split(a) == [h] + q[1..];
    ExtendHead(h, q, x);
  }

  /** Replacing the head of `q + x` by `h` is replacing the head of `q`. */
  lemma ExtendHead<T>(h: T, q: seq<T>, x: seq<T>)
    requires q != []
    ensures [h] + (q + x)[1..] == ([h] + q[1..]) + x
  {
    assert (q + x)[1..] == q[1..] + x;
  }

  lemma SharedDelimiterHead(a: string, t: string, x: seq<string>)
    requires |a| > 1 && IsDelimiter(a[0])
    requires Split(a[1..] + t) == Split(a[1..]) + x
    ensures Split(a + t) == Split(a) + x
  {
    var s := a + t;
    assert s[0] == a[0] && s[1] == a[1] && s[1..] == a[1..] + t;
  }

  /** The list comprehension `[p for p in parts if p]`. */
  function NonEmpty(parts: seq<string>): (r: seq<string>)
    ensures |r| <= |parts|
    ensures forall k :: 0 <= k < |r| ==> r[k] != [] && r[k] in parts
    ensures forall k :: 0 <= k < |parts| && parts[k] != [] ==> parts[k] in r
  {
    if parts == [] then []
    else if parts[0] == [] then NonEmpty(parts[1..])
    else [parts[0]] + NonEmpty(parts[1..])
  }

  /** The comprehension filters each part of a list on its own, so it
      distributes over concatenation. */
  lemma {:induction false} NonEmptyAppend(a: seq<string>, b: seq<string>)
    ensures NonEmpty(a + b) == NonEmpty(a) + NonEmpty(b)
    decreases |a|
  {
    if a != [] {
      assert (a + b)[1..] == a[1..] + b;
      NonEmptyAppend(a[1..], b);
    } else {
      assert a + b == b;
    }
  }

  /** A single part is kept exactly when it is non-empty. */
  lemma NonEmptyOfOne(p: string)
    ensures NonEmpty([p]) == if p == [] then [] else [p]
  {
  }

  /** The names of a cast field, in order: its maximal non-empty runs of
      non-delimiter characters. */
  function Names(s: string): (ts: seq<string>)
    ensures AllNames(ts)
    ensures s != [] && !IsDelimiter(s[0]) ==> ts != [] && ts[0][0] == s[0]
    decreases |s|
  {
    if s == [] then []
    else if IsDelimiter(s[0]) then Names(s[1..])
    else if |s| > 1 && !IsDelimiter(s[1]) then
      var r := Names(s[1..]);
      [[s[0]] + r[0]] + r[1..]
    else [[s[0]]] + Names(s[1..])
  }

  /** Splitting on delimiter runs and dropping the empty pieces yields exactly
      the names. */
  lemma {:induction false} SplitThenFilter(s: string)
    ensures NonEmpty(Split(s)) == Names(s)
    decreases |s|
  {
    if s != [] {
      var t := s[1..];
      var p := Split(t);
      SplitThenFilter(t);
      if !IsDelimiter(s[0]) {
        var q := [[s[0]] + p[0]] + p[1..];
        assert q[1..] == p[1..];
        if |s| > 1 && !IsDelimiter(s[1]) {
          assert p[0] != [];
          assert p == [p[0]] + p[1..];
        } else {
          assert p[0] == [];
          assert NonEmpty(p) == NonEmpty(p[1..]);
          assert q[0] == [s[0]];
        }
      }
    }
  }

  /** `"、".join(ts)`. */
  function Join(ts: seq<string>): (r: string)
    ensures ts != [] ==> ts[0] <= r && |r| == |Concat(ts)| + |ts| - 1
  {
    if ts == [] then []
    else if |ts| == 1 then ts[0]
    else ts[0] + [CastSeparator] + Join(ts[1..])
  }

  /** A non-empty delimiter-free string is a single name. */
  lemma {:induction false} NamesOfWord(w: string)
    requires NoDelimiter(w)
    ensures w == [] ==> Names(w) == []
    ensures w != [] ==> Names(w) == [w]
    decreases |w|
  {
    if |w| > 1 {
      NamesOfWord(w[1..]);
      assert [w[0]] + w[1..] == w;
    } else if |w| == 1 {
      assert w == [w[0]];
    }
  }

  /** Splitting distributes over a delimiter: the names of `a + [d] + b` are
      the names of `a` followed by the names of `b`. Together with
      `NamesOfWord` this determines `Names` on every string. */
  lemma {:induction false} NamesAtDelimiter(a: string, d: char, b: string)
    requires IsDelimiter(d)
    ensures Names(a + [d] + b) == Names(a) + Names(b)
    decreases |a|
  {
    var s := a + [d] + b;
    if a == [] {
      assert s[1..] == b;
    } else {
      var a' := a[1..];
      assert s[0] == a[0];
      assert s[1..] == a' + [d] + b;
      NamesAtDelimiter(a', d, b);
      var x, y := Names(a'), Names(b);
      if IsDelimiter(a[0]) {
      } else if a' == [] {
        assert s[1] == d;
        assert Names(a) == [[a[0]]];
      } else if IsDelimiter(a'[0]) {
        assert s[1] == a'[0];
        assert Names(s) == [[a[0]]] + (x + y);
      } else {
        assert s[1] == a'[0];
        assert x != [];
        var r := x + y;
        assert r[0] == x[0] && r[1..] == x[1..] + y;
        assert Names(s) == [[a[0]] + r[0]] + r[1..];
        assert Names(a) == [[a[0]] + x[0]] + x[1..];
      }
    }
  }

  /** Delimiters before or after a string contribute no names. */
  lemma {:induction false} NamesIgnoreSurroundingDelimiters(x: string, m: string, y: string)
    requires OnlyDelimiters(x) && OnlyDelimiters(y)
    ensures Names(x + m + y) == Names(m)
    decreases |x| + |y|
  {
    if x != [] {
      assert x + m + y == [] + [x[0]] + (x[1..] + m + y);
      NamesAtDelimiter([], x[0], x[1..] + m + y);
      NamesIgnoreSurroundingDelimiters(x[1..], m, y);
    } else if y != [] {
      var z := y[..|y| - 1];
      assert x + m + y == (x + m + z) + [y[|y| - 1]] + [];
      NamesAtDelimiter(x + m + z, y[|y| - 1], []);
      NamesIgnoreSurroundingDelimiters(x, m, z);
    } else {
      assert x + m + y == m;
    }
  }

  /** Stripping whitespace before splitting changes no name. */
  lemma NamesOfStrip(s: string)
    ensures Names(Strip(s)) == Names(s)
  {
    var b, e := StripStart(s), StripEnd(s);
    var x, m, y := s[..b], s[b..e], s[e..];
    assert s == x + m + y;
    assert OnlyDelimiters(x) && OnlyDelimiters(y);
    NamesIgnoreSurroundingDelimiters(x, m, y);
  }

  /** Splitting a joined list of names gives the names back. */
  lemma {:induction false} NamesOfJoin(ts: seq<string>)
    requires AllNames(ts)
    ensures Names(Join(ts)) == ts
  {
    if ts == [] {
    } else if |ts| == 1 {
      NamesOfWord(ts[0]);
    } else {
      NamesAtDelimiter(ts[0], CastSeparator, Join(ts[1..]));
      NamesOfWord(ts[0]);
      NamesOfJoin(ts[1..]);
    }
  }

  /** The shape of a normalised cast: every delimiter in it is the canonical
      separator with a name character on each side, so it neither starts nor
      ends with `、` and never contains `、、`. */
  predicate IsCanonicalCast(s: string) {
    forall i :: 0 <= i < |s| && IsDelimiter(s[i]) ==>
      && s[i] == CastSeparator
      && 0 < i < |s| - 1
      && !IsDelimiter(s[i - 1]) && !IsDelimiter(s[i + 1])
  }

  /** A non-empty join starts with the first character of its first name. */
  lemma JoinStartsWithName(ts: seq<string>)
    requires AllNames(ts) && ts != []
    ensures Join(ts) != [] && Join(ts)[0] == ts[0][0]
  {
    assert IsName(ts[0]);
  }

  /** Joining names with the separator gives a canonical cast. */
  lemma {:induction false} JoinIsCanonical(ts: seq<string>)
    requires AllNames(ts)
    ensures IsCanonicalCast(Join(ts))
  {
    if |ts| > 1 {
      var t, j := ts[0], Join(ts[1..]);
      JoinIsCanonical(ts[1..]);
      JoinStartsWithName(ts[1..]);
      assert IsName(ts[0]) && IsName(ts[1]);
      var s := t + [CastSeparator] + j;
      forall i | 0 <= i < |s| && IsDelimiter(s[i])
        ensures s[i] == CastSeparator && 0 < i < |s| - 1
        ensures !IsDelimiter(s[i - 1]) && !IsDelimiter(s[i + 1])
      {
        if i == |t| {
          assert s[i - 1] == t[|t| - 1];
          assert s[i + 1] == j[0];
        } else if i > |t| {
          var k := i - |t| - 1;
          assert s[i] == j[k];
          assert s[i - 1] == j[k - 1];
          assert s[i + 1] == j[k + 1];
        }
      }
    } else if |ts| == 1 {
      assert IsName(ts[0]);
    }
  }

  /** The first delimiter of `s`, at or before the known delimiter position
      `j`: everything before it is a name character. */
  function FirstDelimiter(s: string, j: nat): (i: nat)
    requires j < |s| && IsDelimiter(s[j])
    ensures i <= j && IsDelimiter(s[i]) && NoDelimiter(s[..i])
  {
    if j == 0 || NoDelimiter(s[..j]) then j
    else
      var k :| 0 <= k < j && IsDelimiter(s[..j][k]);
      FirstDelimiter(s, k)
  }

  /** A canonical cast is the join of its own names. */
  lemma {:induction false} CanonicalIsJoin(s: string)
    requires IsCanonicalCast(s)
    ensures Join(Names(s)) == s
    decreases |s|
  {
    if NoDelimiter(s) {
      NamesOfWord(s);
    } else {
      var j :| 0 <= j < |s| && IsDelimiter(s[j]);
      var i := FirstDelimiter(s, j);
      var u := s[i + 1..];
      assert s == s[..i] + [s[i]] + u;
      NamesAtDelimiter(s[..i], s[i], u);
      NamesOfWord(s[..i]);
      assert IsCanonicalCast(u) by {
        forall k | 0 <= k < |u| && IsDelimiter(u[k])
          ensures u[k] == CastSeparator && 0 < k < |u| - 1
          ensures !IsDelimiter(u[k - 1]) && !IsDelimiter(u[k + 1])
        {
          assert u[k] == s[i + 1 + k];
          assert u[k - 1] == s[i + k];
        }
      }
      CanonicalIsJoin(u);
      assert u[0] == s[i + 1];
    }
  }

  /** Concatenation of a list of strings. */
  function Concat(ts: seq<string>): string {
    if ts == [] then [] else ts[0] + Concat(ts[1..])
  }

  /** The characters of `s` that are not delimiters, in order. */
  function NonDelimiters(s: string): string {
    if s == [] then []
    else if IsDelimiter(s[0]) then NonDelimiters(s[1..])
    else [s[0]] + NonDelimiters(s[1..])
  }

  /** The names of `s`, run together, are exactly the non-delimiter characters
      of `s` in their original order: splitting drops delimiters and nothing
      else. */
  lemma {:induction false} ConcatNames(s: string)
    ensures Concat(Names(s)) == NonDelimiters(s)
    decreases |s|
  {
    if s != [] {
      ConcatNames(s[1..]);
      if !IsDelimiter(s[0]) {
        var r := Names(s[1..]);
        if |s| > 1 && !IsDelimiter(s[1]) {
          var q := [[s[0]] + r[0]] + r[1..];
          assert q[1..] == r[1..];
          assert Concat(r) == r[0] + Concat(r[1..]);
        } else {
          assert ([[s[0]]] + r)[1..] == r;
        }
      }
    }
  }

  lemma {:induction false} NonDelimitersAppend(x: string, y: string)
    ensures NonDelimiters(x + y) == NonDelimiters(x) + NonDelimiters(y)
  {
    if x != [] {
      assert (x + y)[1..] == x[1..] + y;
      NonDelimitersAppend(x[1..], y);
    } else {
      assert x + y == y;
    }
  }

  lemma {:induction false} NonDelimitersOfWord(w: string)
    requires NoDelimiter(w)
    ensures NonDelimiters(w) == w
  {
    if w != [] {
      NonDelimitersOfWord(w[1..]);
    }
  }

  /** Joining names and dropping the separators again leaves the names run
      together. */
  lemma {:induction false} NonDelimitersOfJoin(ts: seq<string>)
    requires AllNames(ts)
    ensures NonDelimiters(Join(ts)) == Concat(ts)
  {
    if ts == [] {
    } else if |ts| == 1 {
      NonDelimitersOfWord(ts[0]);
      assert Concat(ts) == ts[0] + Concat([]);
    } else {
      NonDelimitersOfJoin(ts[1..]);
      NonDelimitersAppend(ts[0] + [CastSeparator], Join(ts[1..]));
      NonDelimitersAppend(ts[0], [CastSeparator]);
      NonDelimitersOfWord(ts[0]);
    }
  }

  /** `normalize_cast`: strip, split on delimiter runs, drop empty pieces and
      rejoin with `、`. The result is the join of the names of the field. */
  function NormalizeCast(castText: string): (r: string)
    ensures r == Join(Names(castText))
  {
    var stripped := Strip(castText);
    SplitThenFilter(stripped);
    NamesOfStrip(castText);
    Join(NonEmpty(Split(stripped)))
  }

  /** Normalising keeps the names, in order. */
  lemma NormalizeKeepsNames(castText: string)
    ensures Names(NormalizeCast(castText)) == Names(castText)
  {
    NamesOfJoin(Names(castText));
  }

  /** A normalised cast has the canonical shape: no leading or trailing `、`,
      no `、、`, no other delimiter. */
  lemma NormalizeIsCanonical(castText: string)
    ensures IsCanonicalCast(NormalizeCast(castText))
  {
    JoinIsCanonical(Names(castText));
  }

  /** Normalising drops delimiters and nothing else. */
  lemma NormalizeKeepsCharacters(castText: string)
    ensures NonDelimiters(NormalizeCast(castText)) == NonDelimiters(castText)
  {
    NonDelimitersOfJoin(Names(castText));
    ConcatNames(castText);
  }

  /** Normalising a normalised cast changes nothing. */
  lemma NormalizeIdempotent(castText: string)
    ensures NormalizeCast(NormalizeCast(castText)) == NormalizeCast(castText)
  {
    NormalizeKeepsNames(castText);
  }

  /** A cast is left unchanged by normalisation exactly when it has the
      canonical shape. */
  lemma NormalizedIffCanonical(s: string)
    ensures NormalizeCast(s) == s <==> IsCanonicalCast(s)
  {
    if IsCanonicalCast(s) {
      CanonicalIsJoin(s);
    }
    NormalizeIsCanonical(s);
  }

  function Min(a: nat, b: nat): nat {
    if a <= b then a else b
  }

  /** Joining a prefix of a list of names gives a prefix of the whole join. */
  lemma {:induction false} JoinPrefix(ts: seq<string>, m: nat)
    requires m <= |ts|
    ensures Join(ts[..m]) <= Join(ts)
  {
    if m == 0 {
    } else if |ts| == 1 {
      assert ts[..m] == ts;
    } else if m == 1 {
      assert ts[..m] == [ts[0]];
    } else {
      assert ts[..m][1..] == ts[1..][..m - 1];
      JoinPrefix(ts[1..], m - 1);
    }
  }

  /** `cast_first_n`: the first `n` names of a cast, rejoined with `、`. The
      source's only caller passes 2, and a natural `n` never reaches Python's
      negative slice bounds. */
  function CastFirstN(cast: string, n: nat): (r: string)
    ensures r == Join(Names(cast)[..Min(n, |Names(cast)|)])
  {
    SplitThenFilter(cast);
    var arr := NonEmpty(Split(cast));
    if cast == [] then [] else Join(arr[..Min(n, |arr|)])
  }

  /** An empty cast, or asking for no names, gives the empty text. */
  lemma CastFirstNEmpty(cast: string, n: nat)
    requires cast == [] || n == 0
    ensures CastFirstN(cast, n) == []
  {
  }

  /** The result holds the first `min(n, k)` names of the cast's `k`, in
      canonical form. */
  lemma CastFirstNNames(cast: string, n: nat)
    ensures Names(CastFirstN(cast, n)) == Names(cast)[..Min(n, |Names(cast)|)]
    ensures IsCanonicalCast(CastFirstN(cast, n))
  {
    var ts := Names(cast);
    NamesOfJoin(ts[..Min(n, |ts|)]);
    JoinIsCanonical(ts[..Min(n, |ts|)]);
  }

  /** The first names are a prefix of the normalised cast. */
  lemma CastFirstNPrefix(cast: string, n: nat)
    ensures CastFirstN(cast, n) <= NormalizeCast(cast)
  {
    var ts := Names(cast);
    JoinPrefix(ts, Min(n, |ts|));
  }

  /** A canonical cast with at most `n` names comes back unchanged. */
  lemma CastFirstNOfCanonical(cast: string, n: nat)
    requires IsCanonicalCast(cast) && |Names(cast)| <= n
    ensures CastFirstN(cast, n) == cast
  {
    var ts := Names(cast);
    assert ts[..Min(n, |ts|)] == ts;
    CanonicalIsJoin(cast);
  }

  /** Joining two names puts one `、` between them. */
  lemma JoinPair(a: string, b: string)
    ensures Join([a, b]) == a + [CastSeparator] + b
  {
    assert [a, b][1..] == [b];
  }

  /** Two names around one delimiter. */
  lemma NamesOfPair(a: string, d: char, b: string)
    requires IsName(a) && IsDelimiter(d) && IsName(b)
    ensures Names(a + [d] + b) == [a, b]
  {
    NamesAtDelimiter(a, d, b);
    NamesOfWord(a);
    NamesOfWord(b);
  }

  /** A run of mixed delimiters between two names, say `，` and a space,
      collapses to a single `、`. */
  lemma NormalizeMixedSeparators(a: string, b: string)
    requires IsName(a) && IsName(b)
    ensures NormalizeCast(a + ['，', ' '] + b) == a + [CastSeparator] + b
  {
    NamesAcrossTwoDelimiters(a, '，', ' ', b);
    JoinPair(a, b);
  }

  lemma NamesAcrossTwoDelimiters(a: string, d: char, e: char, b: string)
    requires IsName(a) && IsDelimiter(d) && IsDelimiter(e) && IsName(b)
    ensures Names(a + [d, e] + b) == [a, b]
  {
    var rest := [e] + b;
    assert a + [d, e] + b == a + [d] + rest;
    NamesAtDelimiter(a, d, rest);
    assert rest[1..] == b;
    NamesOfWord(a);
    NamesOfWord(b);
  }

  /** The first two of three names. */
  lemma FirstTwoOfThree(a: string, b: string, c: string)
    requires IsName(a) && IsName(b) && IsName(c)
    ensures CastFirstN(a + [CastSeparator] + b + [CastSeparator] + c, 2) == a + [CastSeparator] + b
  {
    var s := a + [CastSeparator] + b + [CastSeparator] + c;
    var rest := b + [CastSeparator] + c;
    assert s == a + [CastSeparator] + rest;
    NamesAtDelimiter(a, CastSeparator, rest);
    NamesOfPair(b, CastSeparator, c);
    NamesOfWord(a);
    assert Names(s)[..2] == [a, b];
    JoinPair(a, b);
  }
}

=== FILE: cells.dfy ===
/**
 Reading one fixed cell of the programme sheet (app.py:24-30, `get_cell`).
 The sheet is abstracted as rows of cell texts, each cell already converted
 to its string form; a position outside the sheet reads as the empty text, as
 does a cell whose stripped text is "nan" in any letter case (the form an
 empty spreadsheet cell takes).
 */
module Cells {
  import opened Text

  /** Cell texts by row, then by column. */
  type Grid = seq<seq<string>>

  /** ASCII lower-casing of one character. */
  function Lower(c: char): char {
    if 'A' <= c <= 'Z' then (c as int + 32) as char else c
  }

  /** `v.lower() == "nan"`. */
  predicate IsNanText(v: string) {
    |v| == 3 && Lower(v[0]) == 'n' && Lower(v[1]) == 'a' && Lower(v[2]) == 'n'
  }

  /** The eight letter-case spellings of "nan" are exactly the texts the
      test accepts. */
  lemma NanSpellings(v: string)
    ensures IsNanText(v) <==>
              v in {"nan", "naN", "nAn", "nAN", "Nan", "NaN", "NAn", "NAN"}
  {
    if IsNanText(v) {
      assert v[0] in "nN" && v[1] in "aA" && v[2] in "nN";
      assert v == [v[0], v[1], v[2]];
    }
  }

  predicate InRange(grid: Grid, row: nat, col: nat) {
    row < |grid| && col < |grid[row]|
  }

  /** `get_cell`: the stripped text at `(row, col)`, or the empty text when the
      position is outside the sheet or the text is "nan". */
  function GetCell(grid: Grid, row: nat, col: nat): (r: string)
    ensures IsStripped(r) && !IsNanText(r)
    ensures !InRange(grid, row, col) ==> r == []
    ensures InRange(grid, row, col) && !IsNanText(Strip(grid[row][col])) ==>
              r == Strip(grid[row][col])
    ensures InRange(grid, row, col) && IsNanText(Strip(grid[row][col])) ==> r == []
  {
    if !InRange(grid, row, col) then []
    else
      var v := Strip(grid[row][col]);
      if IsNanText(v) then [] else v
  }

  /** Reading back a value that was read is the identity: a read cell is
      already clean. */
  lemma GetCellStable(grid: Grid, row: nat, col: nat)
    ensures var v := GetCell(grid, row, col);
            GetCell([[v]], 0, 0) == v
  {
    var v := GetCell(grid, row, col);
    var g: Grid := [[v]];
    assert InRange(g, 0, 0) && g[0][0] == v;
    StripOfStripped(v);
  }

  /** The text of an empty spreadsheet cell, here in mixed case and padded
      with spaces, reads as the empty text. */
  lemma NanCellReadsEmpty(s: string)
    requires s == " NaN "
    ensures GetCell([[s]], 0, 0) == []
  {
    assert IsSpace(s[0]) && !IsSpace(s[1]);
    assert SkipSpace(s, 1) == 1;
    assert StripStart(s) == 1;
    assert IsSpace(s[4]) && !IsSpace(s[3]);
    assert StripEnd(s) == BackSpace(s, 1, 4) == 4;
    assert IsNanText(s[1..4]);
  }

  /** A cell that reads as non-empty holds that text, up to surrounding
      whitespace. */
  lemma GetCellNonEmpty(grid: Grid, row: nat, col: nat)
    requires GetCell(grid, row, col) != []
    ensures InRange(grid, row, col)
    ensures GetCell(grid, row, col) == Strip(grid[row][col])
  {
  }
}

=== FILE: compose.dfy ===
/**
 Text composition (app.py:55-65, `compose_text`): status marks, the title and
 the cast are run together into one listing line with no separator.
 */
module Compose {

  /** The four independent status marks of a listing. */
  datatype Marks = Marks(subtitled: bool, dubbed: bool, isNew: bool, isFinal: bool)

  const NoMarks: Marks := Marks(false, false, false, false)

  const SubtitledMark: char := '字'
  const DubbedMark: char := 'デ'
  const NewMark: char := '新'
  const FinalMark: char := '終'

  function Flag(b: bool): nat {
    if b then 1 else 0
  }

  /** Number of leading annotation characters: subtitled and dubbed. */
  function HeadLen(m: Marks): nat {
    Flag(m.subtitled) + Flag(m.dubbed)
  }

  /** Number of marks that are set. */
  function MarkCount(m: Marks): nat {
    HeadLen(m) + Flag(m.isNew) + Flag(m.isFinal)
  }

  /** A single mark character when its flag is set, nothing otherwise. */
  function MarkText(b: bool, c: char): (r: string)
    ensures |r| == Flag(b)
    ensures b ==> r[0] == c
  {
    if b then [c] else []
  }

  /** The cast is appended only when it is non-empty; either way the result
      is the core followed by the cast. */
  function AppendCast(core: string, cast: string): (r: string)
    ensures r == core + cast
  {
    if cast != [] then core + cast else core
  }

  /** The head annotation: 字 when subtitled, then デ when dubbed. */
  function Head(m: Marks): (r: string)
    ensures |r| == HeadLen(m)
    ensures m.subtitled ==> r[0] == SubtitledMark
    ensures m.dubbed ==> r[|r| - 1] == DubbedMark
  {
    MarkText(m.subtitled, SubtitledMark) + MarkText(m.dubbed, DubbedMark)
  }

  /** `compose_text`: the head annotation, then the title wrapped in the 新
      prefix and 終 suffix, then the cast. */
  function ComposeText(title: string, cast: string, m: Marks): (r: string)
    ensures |r| == |title| + |cast| + MarkCount(m)
  {
    var core := MarkText(m.isNew, NewMark) + title + MarkText(m.isFinal, FinalMark);
    Head(m) + AppendCast(core, cast)
  }

  /** The composed text is five pieces in a fixed order. */
  lemma ComposeParts(title: string, cast: string, m: Marks)
    ensures ComposeText(title, cast, m)
              == Head(m) + MarkText(m.isNew, NewMark) + title + MarkText(m.isFinal, FinalMark) + cast
  {
    var h, p, s := Head(m), MarkText(m.isNew, NewMark), MarkText(m.isFinal, FinalMark);
    var core := p + title + s;
    assert ComposeText(title, cast, m) == h + (core + cast);
    assert h + (core + cast) == h + p + title + s + cast;
  }

  /** The marks before the title: 字 first, デ closing the head, 新 right
      after it. */
  lemma ComposeHeadLayout(title: string, cast: string, m: Marks)
    ensures var r := ComposeText(title, cast, m);
            && (m.subtitled ==> r[0] == SubtitledMark)
            && (m.dubbed ==> r[HeadLen(m) - 1] == DubbedMark)
            && (m.isNew ==> r[HeadLen(m)] == NewMark)
  {
    ComposeParts(title, cast, m);
    Layout(Head(m), MarkText(m.isNew, NewMark), title, MarkText(m.isFinal, FinalMark), cast);
  }

  /** The title after the marks that precede it, 終 right after the title,
      and the cast at the end. */
  lemma ComposeTitleLayout(title: string, cast: string, m: Marks)
    ensures var r := ComposeText(title, cast, m);
            && r[HeadLen(m) + Flag(m.isNew)..HeadLen(m) + Flag(m.isNew) + |title|] == title
            && (m.isFinal ==> r[HeadLen(m) + Flag(m.isNew) + |title|] == FinalMark)
            && r[|r| - |cast|..] == cast
  {
    ComposeParts(title, cast, m);
    TitleLayout(ComposeText(title, cast, m), Head(m), MarkText(m.isNew, NewMark), title,
                MarkText(m.isFinal, FinalMark), cast, HeadLen(m) + Flag(m.isNew), m.isFinal);
  }

  /** The title and the cast within `h + p + t + s + c`, where `i` counts the
      characters before the title. */
  lemma TitleLayout(r: string, h: string, p: string, t: string, s: string, c: string,
                    i: nat, final: bool)
    requires r == h + p + t + s + c && i == |h| + |p|
    requires final ==> |s| == 1 && s[0] == FinalMark
    ensures r[i..i + |t|] == t
    ensures final ==> r[i + |t|] == FinalMark
    ensures r[|r| - |c|..] == c
  {
    Layout(h, p, t, s, c);
  }

  /** Where each part of `h + p + t + s + c` lies. */
  lemma Layout(h: string, p: string, t: string, s: string, c: string)
    ensures var r := h + p + t + s + c;
            && |r| == |h| + |p| + |t| + |s| + |c|
            && (|h| > 0 ==> r[0] == h[0] && r[|h| - 1] == h[|h| - 1])
            && (|p| > 0 ==> r[|h|] == p[0])
            && r[|h| + |p|..|h| + |p| + |t|] == t
            && (|s| > 0 ==> r[|h| + |p| + |t|] == s[0])
            && r[|r| - |c|..] == c
  {
    var r := h + p + t + s + c;
    assert r == (h + p + t + s) + c;
    assert (h + p + t + s)[|h| + |p|..|h| + |p| + |t|] == t;
  }

  /** The cast comes last and directly after the marked title: composing with
      a cast is composing without one and appending the cast. */
  lemma ComposeAppendsCast(title: string, cast: string, m: Marks)
    ensures ComposeText(title, cast, m) == ComposeText(title, [], m) + cast
  {
    var h, p, s := Head(m), MarkText(m.isNew, NewMark), MarkText(m.isFinal, FinalMark);
    ComposeParts(title, cast, m);
    ComposeParts(title, [], m);
    assert h + p + title + s + [] == h + p + title + s;
  }

  /** With every mark off the line is the title followed by the cast. */
  lemma ComposeWithoutMarks(title: string, cast: string)
    ensures ComposeText(title, cast, NoMarks) == title + cast
  {
    var b := ComposeText(title, [], NoMarks);
    ComposeAppendsCast(title, cast, NoMarks);
    ComposeTitleLayout(title, [], NoMarks);
    assert b == b[0..|title|];
  }

  /** The head is always 字 before デ when both are set, followed by 新. */
  lemma HeadOrder(title: string, cast: string, m: Marks)
    requires m.subtitled && m.dubbed
    ensures ComposeText(title, cast, m)[..2] == [SubtitledMark, DubbedMark]
    ensures m.isNew ==> ComposeText(title, cast, m)[2] == NewMark
  {
    ComposeHeadLayout(title, cast, m);
  }

  /** With only the 新 mark set the line is 新, the title and the cast. */
  lemma ComposeNewOnly(title: string)
    ensures ComposeText(title, [], Marks(false, false, true, false)) == [NewMark] + title
  {
    var m := Marks(false, false, true, false);
    ComposeHeadLayout(title, [], m);
    ComposeTitleLayout(title, [], m);
    var r := ComposeText(title, [], m);
    assert r == [r[0]] + r[1..1 + |title|];
  }
}

=== FILE: ideas.dfy ===
/**
 Fitting listing texts to a character budget (app.py:52-85): truncation
 (`trim_to_len`), the choice between the main and the short title
 (`pick_title_for_length`) and the generation of up to three distinct
 candidate texts (`generate_ideas`). Lengths count characters, as Python's
 `len` does.
 */
module Ideas {
  import opened Cast
  import opened Compose

  // ---------------------------------------------------------------------
  // trim_to_len
  // ---------------------------------------------------------------------

  /** `trim_to_len`: nothing for a budget of zero or less, otherwise the first
      `n` characters of `s` (all of `s` when it is short enough). */
  function TrimToLen(s: string, n: int): (r: string)
    ensures n <= 0 ==> r == []
    ensures n > 0 ==> r <= s && |r| == if |s| <= n then |s| else n
    ensures n > 0 && |s| <= n ==> r == s
  {
    if n <= 0 then [] else if |s| <= n then s else s[..n]
  }

  /** Trimming an already trimmed text to the same budget changes nothing. */
  lemma TrimIdempotent(s: string, n: int)
    ensures TrimToLen(TrimToLen(s, n), n) == TrimToLen(s, n)
  {
  }

  /** Trimming to a larger budget and then to a smaller one is trimming to the
      smaller one. */
  lemma TrimTwice(s: string, n: int, k: int)
    requires k <= n
    ensures TrimToLen(TrimToLen(s, n), k) == TrimToLen(s, k)
  {
    if k > 0 && |s| > k {
      assert TrimToLen(s, n)[..k] == s[..k];
    }
  }

  /** What follows the budget does not matter: a text that already fills it
      trims to the same result whatever is appended. */
  lemma TrimOfAppend(x: string, y: string, n: int)
    requires n <= |x|
    ensures TrimToLen(x + y, n) == TrimToLen(x, n)
  {
    if 0 < n {
      assert (x + y)[..n] == x[..n];
    }
  }

  // ---------------------------------------------------------------------
  // pick_title_for_length
  // ---------------------------------------------------------------------

  /** Budgets up to this many characters prefer the short title. */
  const ShortTitleLimit: int := 10

  /** `pick_title_for_length`: the short title for a budget of at most ten
      characters when there is one, the main title otherwise. */
  function PickTitleForLength(budget: int, mainTitle: string, shortTitle: string): (r: string)
    ensures budget <= ShortTitleLimit && shortTitle != [] ==> r == shortTitle
    ensures budget > ShortTitleLimit || shortTitle == [] ==> r == mainTitle
  {
    if budget <= ShortTitleLimit && shortTitle != [] then shortTitle else mainTitle
  }

  /** Both titles coming back as they are, the choice is the short title
      exactly when the budget is small and a short title exists. */
  lemma PickShortIff(budget: int, mainTitle: string, shortTitle: string)
    requires mainTitle != shortTitle
    ensures (PickTitleForLength(budget, mainTitle, shortTitle) == shortTitle)
              <==> (budget <= ShortTitleLimit && shortTitle != [])
  {
  }

  // ---------------------------------------------------------------------
  // First occurrences
  // ---------------------------------------------------------------------

  /** The index of the first occurrence of `t` in `ts`. */
  function FirstIndex(ts: seq<string>, t: string): (k: nat)
    requires t in ts
    ensures k < |ts| && ts[k] == t && t !in ts[..k]
    decreases |ts|
  {
    var init := ts[..|ts| - 1];
    if t in init then
      var k := FirstIndex(init, t);
      assert ts[..k] == init[..k];
      k
    else
      |ts| - 1
  }

  /** The dedup loop of `generate_ideas` over already trimmed texts: each
      non-empty text not seen before is appended, in order. */
  function KeepFirst(ts: seq<string>): (out: seq<string>)
    ensures |out| <= |ts|
    ensures forall i :: 0 <= i < |out| ==> out[i] != [] && out[i] in ts
    ensures forall t :: t in ts && t != [] ==> t in out
    ensures forall i, j :: 0 <= i < j < |out| ==> FirstIndex(ts, out[i]) < FirstIndex(ts, out[j])
    ensures forall i, j :: 0 <= i < j < |out| ==> out[i] != out[j]
    decreases |ts|
  {
    if ts == [] then []
    else
      var init := ts[..|ts| - 1];
      var out := KeepFirst(init);
      var t := ts[|ts| - 1];
      assert ts == init + [t];
      assert forall u :: u in init ==> FirstIndex(ts, u) == FirstIndex(init, u);
      if t != [] && t !in out then
        assert t !in init;
        assert FirstIndex(ts, t) == |ts| - 1;
        out + [t]
      else
        out
  }

  /** A sequence of copies of one text keeps at most that text. */
  lemma {:induction false} KeepFirstOfConstant(ts: seq<string>, t: string)
    requires ts != [] && forall k :: 0 <= k < |ts| ==> ts[k] == t
    ensures KeepFirst(ts) == if t == [] then [] else [t]
    decreases |ts|
  {
    var init := ts[..|ts| - 1];
    assert ts[|ts| - 1] == t;
    if |ts| == 1 {
      assert init == [];
    } else {
      assert init[0] == t;
      KeepFirstOfConstant(init, t);
    }
  }

  // ---------------------------------------------------------------------
  // Fitting candidates to a budget
  // ---------------------------------------------------------------------

  /** Every candidate trimmed to the budget. */
  function Trimmed(xs: seq<string>, n: int): (ts: seq<string>)
    ensures |ts| == |xs|
    ensures forall k :: 0 <= k < |xs| ==> ts[k] == TrimToLen(xs[k], n)
  {
    seq(|xs|, k requires 0 <= k < |xs| => TrimToLen(xs[k], n))
  }

  /** The loop of `generate_ideas` over any candidate list: every candidate
      trimmed to the budget, empty texts and repeats dropped, first
      occurrences kept in candidate order. No more ideas than candidates,
      none empty, none longer than the budget, no two alike. */
  function FitIdeas(xs: seq<string>, n: int): (r: seq<string>)
    ensures |r| <= |xs|
    ensures forall i :: 0 <= i < |r| ==> r[i] != [] && |r[i]| <= n
    ensures forall i, j :: 0 <= i < j < |r| ==> r[i] != r[j]
  {
    var ts := Trimmed(xs, n);
    var r := KeepFirst(ts);
    assert forall i :: 0 <= i < |r| ==> r[i] in ts;
    r
  }

  /** A budget of zero or less leaves no idea. */
  lemma FitOfNoBudget(xs: seq<string>, n: int)
    requires n <= 0
    ensures FitIdeas(xs, n) == []
  {
    if xs != [] {
      FitOfSame(xs, n, []);
    }
  }

  /** Every idea is some candidate trimmed to the budget, hence a prefix of
      that candidate: the one at its first occurrence. */
  lemma FitSources(xs: seq<string>, n: int)
    ensures var r := FitIdeas(xs, n);
            forall i :: 0 <= i < |r| ==>
              exists k :: 0 <= k < |xs| && r[i] == TrimToLen(xs[k], n) && r[i] <= xs[k]
  {
    var ts := Trimmed(xs, n);
    var r := KeepFirst(ts);
    forall i | 0 <= i < |r|
      ensures exists k :: 0 <= k < |xs| && r[i] == TrimToLen(xs[k], n) && r[i] <= xs[k]
    {
      var k := FirstIndex(ts, r[i]);
      assert r[i] == TrimToLen(xs[k], n);
    }
  }

  /** No candidate is lost: each one that trims to a non-empty text is
      represented by that text. */
  lemma FitComplete(xs: seq<string>, n: int)
    ensures forall k :: 0 <= k < |xs| && TrimToLen(xs[k], n) != [] ==>
              TrimToLen(xs[k], n) in FitIdeas(xs, n)
  {
    var ts := Trimmed(xs, n);
    assert forall k :: 0 <= k < |xs| ==> ts[k] in ts;
  }

  /** The ideas come in the order of the candidates they first arise from. */
  lemma FitInCandidateOrder(xs: seq<string>, n: int)
    ensures var r, ts := FitIdeas(xs, n), Trimmed(xs, n);
            forall i, j :: 0 <= i < j < |r| ==> FirstIndex(ts, r[i]) < FirstIndex(ts, r[j])
  {
  }

  /** The loop of `generate_ideas` over `ideas_raw`, statement by statement:
      trim each candidate to the budget and keep it when it is non-empty and
      not yet kept. It computes exactly `FitIdeas`. */
  method FitIdeasLoop(ideasRaw: seq<string>, budget: int) returns (out: seq<string>)
    ensures out == FitIdeas(ideasRaw, budget)
  {
    out := [];
    ghost var seen: seq<string> := [];
    var i := 0;
    while i < |ideasRaw|
      invariant 0 <= i <= |ideasRaw|
      invariant seen == Trimmed(ideasRaw[..i], budget)
      invariant out == KeepFirst(seen)
    {
      var t := TrimToLen(ideasRaw[i], budget);
      KeepFirstSnoc(seen, t);
      if t != [] && t !in out {
        out := out + [t];
      }
      TrimmedStep(ideasRaw, i, budget);
      seen := seen + [t];
      i := i + 1;
    }
    assert ideasRaw[..i] == ideasRaw;
  }

  /** Trimming one more candidate appends its trimmed text. */
  lemma TrimmedStep(xs: seq<string>, i: nat, n: int)
    requires i < |xs|
    ensures Trimmed(xs[..i + 1], n) == Trimmed(xs[..i], n) + [TrimToLen(xs[i], n)]
  {
    assert xs[..i + 1] == xs[..i] + [xs[i]];
  }

  /** One loop step: a new text is kept when it is non-empty and not kept
      already. */
  lemma KeepFirstSnoc(ts: seq<string>, t: string)
    ensures KeepFirst(ts + [t])
              == if t != [] && t !in KeepFirst(ts) then KeepFirst(ts) + [t] else KeepFirst(ts)
  {
    assert (ts + [t])[..|ts|] == ts;
  }

  /** Candidates that all trim to the same text yield that text alone, or
      nothing when it is empty. */
  lemma FitOfSame(xs: seq<string>, n: int, t: string)
    requires xs != [] && forall k :: 0 <= k < |xs| ==> TrimToLen(xs[k], n) == t
    ensures FitIdeas(xs, n) == if t == [] then [] else [t]
  {
    var ts := Trimmed(xs, n);
    KeepFirstOfConstant(ts, t);
  }

  /** Candidates that all start with a text at least as long as the budget
      yield that text cut to the budget, alone. */
  lemma FitOfCommonPrefix(xs: seq<string>, n: int, base: string)
    requires xs != [] && 0 < n <= |base|
    requires forall k :: 0 <= k < |xs| ==> base <= xs[k]
    ensures FitIdeas(xs, n) == [base[..n]]
  {
    forall k | 0 <= k < |xs|
      ensures TrimToLen(xs[k], n) == base[..n]
    {
      assert xs[k][..n] == base[..n];
    }
    FitOfSame(xs, n, base[..n]);
  }

  // ---------------------------------------------------------------------
  // generate_ideas
  // ---------------------------------------------------------------------

  /** The three candidates in their fixed order: the full cast, the first two
      cast names, no cast. */
  function Candidates(title: string, cast: string, firstTwo: string, m: Marks): (xs: seq<string>)
    ensures |xs| == 3
  {
    [ComposeText(title, cast, m), ComposeText(title, firstTwo, m), ComposeText(title, [], m)]
  }

  /** Every candidate starts with the marked title. */
  lemma CandidatesExtendBase(title: string, cast: string, firstTwo: string, m: Marks)
    ensures forall k :: 0 <= k < 3 ==>
              ComposeText(title, [], m) <= Candidates(title, cast, firstTwo, m)[k]
  {
    var base := ComposeText(title, [], m);
    ComposeAppendsCast(title, cast, m);
    ComposeAppendsCast(title, firstTwo, m);
    assert base <= base + cast && base <= base + firstTwo;
  }

  /** The candidates `generate_ideas` composes for a budget. */
  function IdeaCandidates(mainTitle: string, shortTitle: string, cast: string, m: Marks, budget: int)
    : (xs: seq<string>)
    ensures |xs| == 3
  {
    Candidates(PickTitleForLength(budget, mainTitle, shortTitle), cast, CastFirstN(cast, 2), m)
  }

  /** `generate_ideas`: the three candidates composed with the title chosen
      for the budget, fitted to the budget. At most three distinct ideas, none
      empty, none longer than the budget. */
  function GenerateIdeas(mainTitle: string, shortTitle: string, cast: string, m: Marks, budget: int)
    : (r: seq<string>)
    ensures |r| <= 3
    ensures forall i :: 0 <= i < |r| ==> r[i] != [] && |r[i]| <= budget
    ensures forall i, j :: 0 <= i < j < |r| ==> r[i] != r[j]
  {
    FitIdeas(IdeaCandidates(mainTitle, shortTitle, cast, m, budget), budget)
  }

  /** A budget of zero or less gives no idea. */
  lemma IdeasOfNoBudget(mainTitle: string, shortTitle: string, cast: string, m: Marks, budget: int)
    requires budget <= 0
    ensures GenerateIdeas(mainTitle, shortTitle, cast, m, budget) == []
  {
    FitOfNoBudget(IdeaCandidates(mainTitle, shortTitle, cast, m, budget), budget);
  }

  /** Every idea is one of the three candidates cut to the budget, hence a
      prefix of it, and every candidate that does not cut to nothing is
      represented. */
  lemma IdeasFromCandidates(mainTitle: string, shortTitle: string, cast: string, m: Marks, budget: int)
    ensures var r, xs := GenerateIdeas(mainTitle, shortTitle, cast, m, budget),
                         IdeaCandidates(mainTitle, shortTitle, cast, m, budget);
            && (forall i :: 0 <= i < |r| ==>
                  exists k :: 0 <= k < 3 && r[i] == TrimToLen(xs[k], budget) && r[i] <= xs[k])
            && (forall k :: 0 <= k < 3 && TrimToLen(xs[k], budget) != [] ==>
                  TrimToLen(xs[k], budget) in r)
  {
    var xs := IdeaCandidates(mainTitle, shortTitle, cast, m, budget);
    var r := GenerateIdeas(mainTitle, shortTitle, cast, m, budget);
    assert r == FitIdeas(xs, budget) && |xs| == 3;
    FitSources(xs, budget);
    FitComplete(xs, budget);
  }

  /** The ideas keep the order of the candidates they first arise from. */
  lemma IdeasInCandidateOrder(mainTitle: string, shortTitle: string, cast: string, m: Marks, budget: int)
    ensures var r, ts := GenerateIdeas(mainTitle, shortTitle, cast, m, budget),
                         Trimmed(IdeaCandidates(mainTitle, shortTitle, cast, m, budget), budget);
            forall i, j :: 0 <= i < j < |r| ==> FirstIndex(ts, r[i]) < FirstIndex(ts, r[j])
  {
    FitInCandidateOrder(IdeaCandidates(mainTitle, shortTitle, cast, m, budget), budget);
  }

  /** Without a cast at most one idea is generated: the three candidates
      coincide. */
  lemma IdeasOfEmptyCast(mainTitle: string, shortTitle: string, m: Marks, budget: int)
    ensures |GenerateIdeas(mainTitle, shortTitle, [], m, budget)| <= 1
  {
    var title := PickTitleForLength(budget, mainTitle, shortTitle);
    var c := ComposeText(title, [], m);
    assert CastFirstN([], 2) == [];
    assert IdeaCandidates(mainTitle, shortTitle, [], m, budget) == [c, c, c];
    FitOfSame([c, c, c], budget, TrimToLen(c, budget));
  }

  /** An empty cast does not always give an idea: an empty title without
      marks composes only empty candidates, whatever the budget. */
  lemma EmptyListingGivesNoIdea(budget: int)
    ensures GenerateIdeas([], [], [], NoMarks, budget) == []
  {
    var title := PickTitleForLength(budget, [], []);
    ComposeWithoutMarks(title, []);
    assert IdeaCandidates([], [], [], NoMarks, budget) == [[], [], []];
    FitOfSame([[], [], []], budget, []);
  }

  /** A budget no longer than the marked title cuts every candidate inside it:
      all three trim to the same text and exactly one idea comes out. */
  lemma IdeasWithinMarkedTitle(mainTitle: string, shortTitle: string, cast: string, m: Marks, budget: int)
    requires 0 < budget <= |PickTitleForLength(budget, mainTitle, shortTitle)| + MarkCount(m)
    ensures GenerateIdeas(mainTitle, shortTitle, cast, m, budget)
              == [ComposeText(PickTitleForLength(budget, mainTitle, shortTitle), [], m)[..budget]]
  {
    var title := PickTitleForLength(budget, mainTitle, shortTitle);
    var base := ComposeText(title, [], m);
    CandidatesExtendBase(title, cast, CastFirstN(cast, 2), m);
    FitOfCommonPrefix(IdeaCandidates(mainTitle, shortTitle, cast, m, budget), budget, base);
  }

  /** The "DOCTOR PRICE" listing marked new, with no short title, in a budget
      of ten characters yields the single idea "新DOCTOR PR". */
  lemma DoctorPriceExample(cast: string)
    ensures GenerateIdeas("DOCTOR PRICE", "", cast, Marks(false, false, true, false), 10)
              == ["新DOCTOR PR"]
  {
    var m := Marks(false, false, true, false);
    var title := "DOCTOR PRICE";
    assert PickTitleForLength(10, title, "") == title;
    IdeasWithinMarkedTitle(title, "", cast, m, 10);
    ComposeNewOnly(title);
    DoctorPriceCut();
  }

  lemma DoctorPriceCut()
    ensures ([NewMark] + "DOCTOR PRICE")[..10] == "新DOCTOR PR"
  {
    var line := [NewMark] + "DOCTOR PRICE";
    assert line[..10] == [line[0]] + "DOCTOR PR";
  }
}

=== FILE: text.dfy ===
/**
 Character classes and whitespace stripping shared by every stage of the
 listing pipeline (app.py). Strings are sequences of Unicode scalar values,
 as Python's `str` is a sequence of code points.
 */
module Text {

  /** One concrete whitespace class, used both for `str.strip()` and for the
      regular-expression class `\s`: the characters for which Python's
      `str.isspace()` holds. */
  predicate IsSpace(c: char) {
    || ('\t' <= c <= '\r')                    // TAB, LF, VT, FF, CR
    || ('\U{1C}' <= c <= '\U{1F}')            // information separators
    || c == ' '
    || c == '\U{85}' || c == '\U{A0}' || c == '\U{1680}'
    || ('\U{2000}' <= c <= '\U{200A}')
    || c == '\U{2028}' || c == '\U{2029}' || c == '\U{202F}' || c == '\U{205F}'
    || c == '\U{3000}'                        // ideographic space
  }

  /** The canonical cast separator, the ideographic comma. */
  const CastSeparator: char := '、'

  /** The delimiter class `[、，,/／・\s]` used to split a cast field. */
  predicate IsDelimiter(c: char) {
    || c == CastSeparator || c == '，' || c == ',' || c == '/' || c == '／' || c == '・'
    || IsSpace(c)
  }

  /** Opening bracket of a reading annotation: full-width or half-width. */
  predicate IsOpener(c: char) {
    c == '（' || c == '('
  }

  /** Closing bracket of a reading annotation: full-width or half-width. */
  predicate IsCloser(c: char) {
    c == '）' || c == ')'
  }

  /** The class `[A-Za-z]`. */
  predicate IsAsciiLetter(c: char) {
    ('A' <= c <= 'Z') || ('a' <= c <= 'z')
  }

  predicate HasAsciiLetter(s: string) {
    exists i :: 0 <= i < |s| && IsAsciiLetter(s[i])
  }

  predicate AllSpace(s: string) {
    forall i :: 0 <= i < |s| ==> IsSpace(s[i])
  }

  /** True iff `s` has no leading and no trailing whitespace. */
  predicate IsStripped(s: string) {
    s == [] || (!IsSpace(s[0]) && !IsSpace(s[|s| - 1]))
  }

  /** The first index at or after `i` that does not hold whitespace, or
      `|s|` when there is none. */
  function SkipSpace(s: string, i: nat): (j: nat)
    requires i <= |s|
    ensures i <= j <= |s|
    ensures forall k :: i <= k < j ==> IsSpace(s[k])
    ensures j < |s| ==> !IsSpace(s[j])
    decreases |s| - i
  {
    if i < |s| && IsSpace(s[i]) then SkipSpace(s, i + 1) else i
  }

  /** The end of `s[lo..j]` once its trailing whitespace is dropped. */
  function BackSpace(s: string, lo: nat, j: nat): (e: nat)
    requires lo <= j <= |s|
    ensures lo <= e <= j
    ensures forall k :: e <= k < j ==> IsSpace(s[k])
    ensures e > lo ==> !IsSpace(s[e - 1])
    decreases j - lo
  {
    if j > lo && IsSpace(s[j - 1]) then BackSpace(s, lo, j - 1) else j
  }

  /** Where the stripped text starts: the first non-whitespace index. */
  function StripStart(s: string): nat {
    SkipSpace(s, 0)
  }

  /** Where the stripped text ends: one past the last non-whitespace index. */
  function StripEnd(s: string): nat {
    BackSpace(s, StripStart(s), |s|)
  }

  /** Python's `str.strip()` with no argument: the slice of `s` between its
      leading and its trailing whitespace. */
  function Strip(s: string): (r: string)
    ensures IsStripped(r) && |r| <= |s|
  {
    s[StripStart(s)..StripEnd(s)]
  }

  /** Only whitespace lies outside the stripped slice. */
  lemma StripSurroundings(s: string)
    ensures forall k :: 0 <= k < StripStart(s) ==> IsSpace(s[k])
    ensures forall k :: StripEnd(s) <= k < |s| ==> IsSpace(s[k])
  {
  }

  /** A string without surrounding whitespace is its own strip. */
  lemma StripOfStripped(s: string)
    requires IsStripped(s)
    ensures Strip(s) == s
  {
    assert StripStart(s) == 0;
  }

  /** Stripping is idempotent. */
  lemma StripIdempotent(s: string)
    ensures Strip(Strip(s)) == Strip(s)
  {
    StripOfStripped(Strip(s));
  }

  /** An empty or all-whitespace string strips to the empty string, and only
      such a string does. */
  lemma StripEmptyIff(s: string)
    ensures Strip(s) == [] <==> AllSpace(s)
  {
    var b, e := StripStart(s), StripEnd(s);
    if AllSpace(s) {
      assert b == |s|;
    }
    if Strip(s) == [] {
      assert e == b;
    }
  }
}

=== FILE: title.dfy ===
/**
 Title normalisation (app.py:32-40, `prefer_latin_title`). A title that
 contains an ASCII letter is kept in its Latin form and loses its bracketed
 reading annotations, written in full-width `（）` or half-width `()`
 brackets. A bracket group is an opener, any run of non-closers, and a
 closer; the two regular-expression substitutions of the source are modelled
 as explicit left-to-right scans.
 */
module Title {
  import opened Text

  datatype Option<T> = None | Some(value: T)

  predicate NoOpener(s: string) {
    forall i :: 0 <= i < |s| ==> !IsOpener(s[i])
  }

  predicate NoCloser(s: string) {
    forall i :: 0 <= i < |s| ==> !IsCloser(s[i])
  }

  /** No opener in `s` is followed, anywhere later, by a closer: `s` holds no
      bracket group. */
  predicate NoGroup(s: string) {
    forall i, j :: 0 <= i < j < |s| && IsOpener(s[i]) ==> !IsCloser(s[j])
  }

  /** The index of the first closer in `s` at or after `k`. */
  function FirstCloser(s: string, k: nat): (r: Option<nat>)
    requires k <= |s|
    ensures r.None? ==> NoCloser(s[k..])
    ensures r.Some? ==> k <= r.value < |s| && IsCloser(s[r.value]) && NoCloser(s[k..r.value])
    decreases |s| - k
  {
    if k == |s| then None
    else if IsCloser(s[k]) then Some(k)
    else
      var r := FirstCloser(s, k + 1);
      assert r.None? ==> s[k..] == [s[k]] + s[k + 1..];
      assert r.Some? ==> s[k..r.value] == [s[k]] + s[k + 1..r.value];
      r
  }

  // ---------------------------------------------------------------------
  // First substitution, app.py:38: re.sub(r"[（(][^）)]*[）)]\s*$", "", s)
  // ---------------------------------------------------------------------

  /** An opener at `q` whose first later closer is the one at `j`. */
  predicate OpensGroupAt(s: string, q: nat, j: nat)
    requires q < j <= |s|
  {
    IsOpener(s[q]) && NoCloser(s[q + 1..j])
  }

  /** A bracket group starts at `p` and reaches the end of `s`: `s[p]` is an
      opener, the last non-whitespace character of `s` is a closer, and no
      closer lies between them. Only whitespace may follow the group, which
      is what `[）)]\s*$` admits. */
  predicate TrailingGroupAt(s: string, p: nat) {
    var e := BackSpace(s, 0, |s|);
    && p + 1 < e
    && IsCloser(s[e - 1])
    && OpensGroupAt(s, p, e - 1)
  }

  /** The leftmost start in `[p, j)` of an opener whose first later closer is
      the one at `j`: the scan the regular-expression engine performs. */
  function FindGroupStart(s: string, p: nat, j: nat): (r: Option<nat>)
    requires p <= j < |s|
    ensures r.Some? ==> p <= r.value < j && OpensGroupAt(s, r.value, j)
    ensures forall q :: p <= q < j && (r.None? || q < r.value) ==> !OpensGroupAt(s, q, j)
    decreases j - p
  {
    if p == j then None
    else if OpensGroupAt(s, p, j) then Some(p)
    else FindGroupStart(s, p + 1, j)
  }

  /** The first substitution: removes the leftmost bracket group that runs to
      the end of the string, together with the whitespace after it. */
  function RemoveTrailingReading(s: string): (r: string)
    ensures r <= s
    ensures r != s ==> TrailingGroupAt(s, |r|)
    ensures forall q :: 0 <= q < |s| && (r == s || q < |r|) ==> !TrailingGroupAt(s, q)
  {
    var e := BackSpace(s, 0, |s|);
    if e == 0 || !IsCloser(s[e - 1]) then s
    else
      match FindGroupStart(s, 0, e - 1)
      case None => s
      case Some(p) => s[..p]
  }

  /** A string with no bracket group has no trailing one to remove. */
  lemma RemoveTrailingReadingOfNoGroup(s: string)
    requires NoGroup(s)
    ensures RemoveTrailingReading(s) == s
  {
  }

  /** A stripped title whose last character is not a closer has no trailing
      group to remove. */
  lemma RemoveTrailingReadingOfOpenEnd(s: string)
    requires IsStripped(s) && s != [] && !IsCloser(s[|s| - 1])
    ensures RemoveTrailingReading(s) == s
  {
    assert BackSpace(s, 0, |s|) == |s|;
  }

  // ---------------------------------------------------------------------
  // Second substitution, app.py:39: re.sub(r"\s*[（(][^）)]*[）)]\s*", " ", s)
  // ---------------------------------------------------------------------

  /** `s[..e]` is a match of `\s*[（(][^）)]*[）)]\s*` with the opener at `w`
      and the closer at `j`, and the trailing `\s*` cannot be extended. */
  predicate GroupShape(s: string, w: nat, j: nat, e: nat) {
    && w < j < e <= |s|
    && AllSpace(s[..w]) && IsOpener(s[w])
    && NoCloser(s[w + 1..j]) && IsCloser(s[j])
    && AllSpace(s[j + 1..e]) && (e < |s| ==> !IsSpace(s[e]))
  }

  /** A match at the start of `s` is unique: the opener follows the leading
      whitespace, the closer is the first one after it, and the match ends at
      the first non-whitespace after the closer. */
  lemma GroupShapeDetermined(s: string, w: nat, j: nat, e: nat)
    requires GroupShape(s, w, j, e)
    ensures w == SkipSpace(s, 0)
    ensures FirstCloser(s, w + 1) == Some(j)
    ensures e == SkipSpace(s, j + 1)
  {
    assert !IsSpace(s[w]) && !IsCloser(s[w]);
    forall k | 0 <= k < w
      ensures IsSpace(s[k])
    {
      assert s[..w][k] == s[k];
    }
    forall k | w < k < j
      ensures !IsCloser(s[k])
    {
      assert s[w + 1..j][k - w - 1] == s[k];
    }
    forall k | j < k < e
      ensures IsSpace(s[k])
    {
      assert s[j + 1..e][k - j - 1] == s[k];
    }
    assert s[w + 1..][j - w - 1] == s[j];
    var f := FirstCloser(s, w + 1);
    assert f.Some?;
    forall k | w < k < f.value
      ensures !IsCloser(s[k])
    {
      assert s[w + 1..f.value][k - w - 1] == s[k];
    }
  }

  /** Length of the match of `\s*[（(][^）)]*[）)]\s*` at the start of `s`:
      leading whitespace, an opener, everything up to the first closer after
      it, and the whitespace that follows that closer. */
  function GroupMatch(s: string): (m: Option<nat>)
    ensures m.Some? ==> 0 < m.value <= |s|
  {
    var w := SkipSpace(s, 0);
    if w < |s| && IsOpener(s[w]) then
      match FirstCloser(s, w + 1)
      case None => None
      case Some(j) => Some(SkipSpace(s, j + 1))
    else None
  }

  /** The scan finds a match exactly when some prefix of `s` has the shape of
      one, and then it consumes exactly that prefix. */
  lemma GroupMatchExact(s: string)
    ensures GroupMatch(s).Some? ==> exists w: nat, j: nat :: GroupShape(s, w, j, GroupMatch(s).value)
    ensures forall w: nat, j: nat, e: nat :: GroupShape(s, w, j, e) ==> GroupMatch(s) == Some(e)
  {
    forall w: nat, j: nat, e: nat | GroupShape(s, w, j, e)
      ensures GroupMatch(s) == Some(e)
    {
      GroupShapeDetermined(s, w, j, e);
    }
    var w := SkipSpace(s, 0);
    if w < |s| && IsOpener(s[w]) && FirstCloser(s, w + 1).Some? {
      var j := FirstCloser(s, w + 1).value;
      var e := SkipSpace(s, j + 1);
      GroupShapeOfScan(s, w, j, e);
    }
  }

  /** The positions the scan finds form a match. */
  lemma GroupShapeOfScan(s: string, w: nat, j: nat, e: nat)
    requires w == SkipSpace(s, 0) && w < |s| && IsOpener(s[w])
    requires FirstCloser(s, w + 1) == Some(j) && e == SkipSpace(s, j + 1)
    ensures GroupShape(s, w, j, e)
  {
    forall k | 0 <= k < w
      ensures IsSpace(s[..w][k])
    {
      assert s[..w][k] == s[k];
    }
    var tail := s[j + 1..e];
    forall k | 0 <= k < |tail|
      ensures IsSpace(tail[k])
    {
      assert tail[k] == s[j + 1 + k];
    }
  }

  /** The second substitution: scanning from the left, every match of a
      bracket group with the whitespace around it becomes one space. */
  function ReplaceReadings(s: string): (r: string)
    ensures |r| <= |s|
    decreases |s|
  {
    if s == [] then []
    else
      match GroupMatch(s)
      case Some(k) => [' '] + ReplaceReadings(s[k..])
      case None => [s[0]] + ReplaceReadings(s[1..])
  }

  /** A match needs an opener followed by a closer. */
  lemma NoMatchWithoutGroup(s: string)
    requires NoGroup(s)
    ensures GroupMatch(s).None?
  {
    var w := SkipSpace(s, 0);
    if w < |s| && IsOpener(s[w]) {
      var c := FirstCloser(s, w + 1);
    }
  }

  /** Text with no opener, ending in a non-whitespace character, is copied
      unchanged: no match can start inside it. */
  lemma {:induction false} ReplaceReadingsOfPlain(a: string, t: string)
    requires NoOpener(a) && (a == [] || !IsSpace(a[|a| - 1]))
    ensures ReplaceReadings(a + t) == a + ReplaceReadings(t)
    decreases |a|
  {
    if a != [] {
      var a' := a[1..];
      assert a' == [] || a'[|a'| - 1] == a[|a| - 1];
      var rt := ReplaceReadings(t);
      calc {
        ReplaceReadings(a + t);
        { PlainStep(a, t); }
        [a[0]] + ReplaceReadings(a' + t);
        { ReplaceReadingsOfPlain(a', t); }
        [a[0]] + (a' + rt);
        { assert a == [a[0]] + a'; }
        a + rt;
      }
    } else {
      assert a + t == t;
    }
  }

  /** No match starts at a character of text with no opener that ends in a
      non-whitespace character: the scan copies that character. */
  lemma PlainStep(a: string, t: string)
    requires a != [] && NoOpener(a) && !IsSpace(a[|a| - 1])
    ensures ReplaceReadings(a + t) == [a[0]] + ReplaceReadings(a[1..] + t)
  {
    var s := a + t;
    assert !IsSpace(s[|a| - 1]);
    assert GroupMatch(s).None? by {
      var w := SkipSpace(s, 0);
      assert w < |a|;
      assert s[w] == a[w];
    }
    assert s[1..] == a[1..] + t;
  }

  /** A bracket group with the whitespace around it, up to the next
      non-whitespace character, becomes one space. */
  lemma ReplaceGroup(w1: string, o: char, r: string, c: char, w2: string, b: string)
    requires AllSpace(w1) && AllSpace(w2)
    requires IsOpener(o) && NoCloser(r) && IsCloser(c)
    requires b == [] || !IsSpace(b[0])
    ensures ReplaceReadings(w1 + [o] + r + [c] + w2 + b) == [' '] + ReplaceReadings(b)
  {
    var s := w1 + [o] + r + [c] + w2 + b;
    var w, j := |w1|, |w1| + 1 + |r|;
    var e := j + 1 + |w2|;
    assert s[..w] == w1 && s[w] == o && s[w + 1..j] == r && s[j] == c;
    assert s[j + 1..e] == w2 && s[e..] == b;
    assert GroupShape(s, w, j, e);
    GroupMatchExact(s);
  }

  /** The second substitution on a title `a`, a bracket group with
      whitespace around it, and a rest `b`: the group and its whitespace
      become one space, and the scan goes on in `b`. */
  lemma ReplaceReadingAfter(a: string, w1: string, o: char, r: string, c: char, w2: string, b: string)
    requires NoOpener(a) && (a == [] || !IsSpace(a[|a| - 1]))
    requires AllSpace(w1) && AllSpace(w2)
    requires IsOpener(o) && NoCloser(r) && IsCloser(c)
    requires b == [] || !IsSpace(b[0])
    ensures ReplaceReadings(a + (w1 + [o] + r + [c] + w2 + b)) == a + ([' '] + ReplaceReadings(b))
  {
    ReplaceReadingsOfPlain(a, w1 + [o] + r + [c] + w2 + b);
    ReplaceGroup(w1, o, r, c, w2, b);
  }

  /** A string with no bracket group is left unchanged. */
  lemma {:induction false} ReplaceReadingsOfNoGroup(s: string)
    requires NoGroup(s)
    ensures ReplaceReadings(s) == s
    decreases |s|
  {
    if s != [] {
      NoMatchWithoutGroup(s);
      NoGroupSlice(s, 1, |s|);
      ReplaceReadingsOfNoGroup(s[1..]);
    }
  }

  /** After the second substitution no opener is followed by a closer. */
  lemma {:induction false} ReplaceReadingsRemovesGroups(s: string)
    ensures NoGroup(ReplaceReadings(s))
    decreases |s|
  {
    if s != [] {
      match GroupMatch(s)
      case Some(k) =>
        ReplaceReadingsRemovesGroups(s[k..]);
        NoGroupCons(' ', ReplaceReadings(s[k..]));
      case None =>
        var rest := ReplaceReadings(s[1..]);
        ReplaceReadingsRemovesGroups(s[1..]);
        if IsOpener(s[0]) {
          assert SkipSpace(s, 0) == 0;
          assert FirstCloser(s, 1).None?;
          assert NoGroup(s[1..]);
          ReplaceReadingsOfNoGroup(s[1..]);
        }
        NoGroupCons(s[0], rest);
    }
  }

  lemma NoGroupCons(c: char, rest: string)
    requires NoGroup(rest)
    requires IsOpener(c) ==> NoCloser(rest)
    ensures NoGroup([c] + rest)
  {
    var s := [c] + rest;
    forall i, j | 0 <= i < j < |s| && IsOpener(s[i])
      ensures !IsCloser(s[j])
    {
      assert s[j] == rest[j - 1];
      if i > 0 {
        assert s[i] == rest[i - 1];
      }
    }
  }

  /** A slice of a string without groups has none either. */
  lemma NoGroupSlice(s: string, lo: nat, hi: nat)
    requires lo <= hi <= |s| && NoGroup(s)
    ensures NoGroup(s[lo..hi])
  {
    var t := s[lo..hi];
    forall i, j | 0 <= i < j < |t| && IsOpener(t[i])
      ensures !IsCloser(t[j])
    {
      assert t[i] == s[lo + i] && t[j] == s[lo + j];
    }
  }

  lemma NoGroupStrip(s: string)
    requires NoGroup(s)
    ensures NoGroup(Strip(s))
  {
    NoGroupSlice(s, StripStart(s), StripEnd(s));
  }

  // ---------------------------------------------------------------------
  // prefer_latin_title
  // ---------------------------------------------------------------------

  /** The two substitutions of the Latin branch, each followed by a strip. */
  function DropReadings(s: string): (r: string)
    ensures IsStripped(r) && NoGroup(r)
  {
    var t := ReplaceReadings(Strip(RemoveTrailingReading(s)));
    ReplaceReadingsRemovesGroups(Strip(RemoveTrailingReading(s)));
    NoGroupStrip(t);
    Strip(t)
  }

  /** A stripped title with no bracket group comes through both
      substitutions unchanged. */
  lemma DropReadingsOfNoGroup(s: string)
    requires IsStripped(s) && NoGroup(s)
    ensures DropReadings(s) == s
  {
    RemoveTrailingReadingOfNoGroup(s);
    StripOfStripped(s);
    ReplaceReadingsOfNoGroup(s);
  }

  /** `prefer_latin_title`: strip the title; if it contains an ASCII letter,
      drop a trailing bracket group, then replace every remaining bracket
      group and the whitespace around it by a space, stripping after each
      step. A title without ASCII letters is only stripped. */
  function PreferLatinTitle(raw: string): (r: string)
    ensures IsStripped(r)
  {
    var s := Strip(raw);
    if s == [] then s
    else if HasAsciiLetter(s) then DropReadings(s)
    else s
  }

  /** An empty or all-whitespace title gives the empty text. */
  lemma PreferLatinOfBlank(raw: string)
    requires AllSpace(raw)
    ensures PreferLatinTitle(raw) == []
  {
    StripEmptyIff(raw);
  }

  /** A title without ASCII letters is only stripped. */
  lemma PreferLatinOfNonLatin(raw: string)
    requires !HasAsciiLetter(raw)
    ensures PreferLatinTitle(raw) == Strip(raw)
  {
    LettersSurviveStrip(raw);
  }

  /** A title with an ASCII letter keeps no bracket group. */
  lemma PreferLatinRemovesGroups(raw: string)
    requires HasAsciiLetter(raw)
    ensures NoGroup(PreferLatinTitle(raw))
  {
    LettersSurviveStrip(raw);
    var s := Strip(raw);
    assert s != [] && HasAsciiLetter(s);
  }

  /** A title without bracket groups is only stripped, Latin or not. */
  lemma PreferLatinOfNoGroup(raw: string)
    requires NoGroup(raw)
    ensures PreferLatinTitle(raw) == Strip(raw)
  {
    var s := Strip(raw);
    NoGroupStrip(raw);
    if s != [] && HasAsciiLetter(s) {
      DropReadingsOfNoGroup(s);
    }
  }

  /** `LATIN.search` on the stripped title sees the same letters as on the
      raw one: ASCII letters are not whitespace. */
  lemma LettersSurviveStrip(raw: string)
    ensures HasAsciiLetter(Strip(raw)) == HasAsciiLetter(raw)
  {
    StripSurroundings(raw);
    LettersOfCore(raw, StripStart(raw), StripEnd(raw));
  }

  /** Cutting whitespace off both ends of a string keeps its ASCII letters. */
  lemma LettersOfCore(s: string, i: nat, e: nat)
    requires i <= e <= |s|
    requires forall k :: 0 <= k < i ==> IsSpace(s[k])
    requires forall k :: e <= k < |s| ==> IsSpace(s[k])
    ensures HasAsciiLetter(s[i..e]) == HasAsciiLetter(s)
  {
    var mid := s[i..e];
    if HasAsciiLetter(s) {
      var j :| 0 <= j < |s| && IsAsciiLetter(s[j]);
      assert i <= j < e;
      assert mid[j - i] == s[j];
    }
    if HasAsciiLetter(mid) {
      var j :| 0 <= j < |mid| && IsAsciiLetter(mid[j]);
      assert s[i + j] == mid[j];
    }
  }

  /** Preferring the Latin title twice is the same as doing it once. */
  lemma PreferLatinIdempotent(raw: string)
    ensures PreferLatinTitle(PreferLatinTitle(raw)) == PreferLatinTitle(raw)
  {
    var r := PreferLatinTitle(raw);
    if HasAsciiLetter(raw) {
      PreferLatinRemovesGroups(raw);
      PreferLatinOfNoGroup(r);
    } else {
      PreferLatinOfNonLatin(raw);
      LettersSurviveStrip(raw);
      PreferLatinOfNonLatin(r);
    }
    StripOfStripped(r);
  }

  /** A stripped title with an ASCII letter goes through both
      substitutions. */
  lemma PreferLatinOfStripped(raw: string)
    requires IsStripped(raw) && HasAsciiLetter(raw)
    ensures PreferLatinTitle(raw) == DropReadings(raw)
  {
    StripOfStripped(raw);
  }

  /** When the first substitution leaves a clean prefix, the second changes
      nothing. */
  lemma DropTrailingReading(raw: string, latin: string)
    requires RemoveTrailingReading(raw) == latin
    requires IsStripped(latin) && NoGroup(latin)
    ensures DropReadings(raw) == latin
  {
    StripOfStripped(latin);
    ReplaceReadingsOfNoGroup(latin);
  }

  /** A Latin title with no brackets of its own, followed directly by one
      bracketed reading, comes out as the Latin title alone. */
  lemma PreferLatinDropsReading(latin: string, o: char, reading: string, c: char)
    requires IsStripped(latin) && HasAsciiLetter(latin)
    requires NoOpener(latin) && NoCloser(latin)
    requires IsOpener(o) && NoCloser(reading) && IsCloser(c)
    ensures PreferLatinTitle(latin + [o] + reading + [c]) == latin
  {
    var raw := latin + [o] + reading + [c];
    assert IsStripped(raw) by {
      assert raw[0] == latin[0];
    }
    assert HasAsciiLetter(raw) by {
      var i :| 0 <= i < |latin| && IsAsciiLetter(latin[i]);
      assert raw[i] == latin[i];
    }
    PreferLatinOfStripped(raw);
    RemoveReadingAfter(latin, o, reading, c);
    assert NoGroup(latin);
    DropTrailingReading(raw, latin);
  }

  /** The first substitution removes a bracketed reading at the very end of a
      title that has no opener before it. */
  lemma RemoveReadingAfter(latin: string, o: char, reading: string, c: char)
    requires NoOpener(latin) && IsOpener(o) && NoCloser(reading) && IsCloser(c)
    ensures RemoveTrailingReading(latin + [o] + reading + [c]) == latin
  {
    var s := latin + [o] + reading + [c];
    var p := |latin|;
    assert BackSpace(s, 0, |s|) == |s|;
    assert s[p + 1..|s| - 1] == reading;
    assert OpensGroupAt(s, p, |s| - 1);
    forall q | 0 <= q < p
      ensures !IsOpener(s[q])
    {
      assert s[q] == latin[q];
    }
    assert s[..p] == latin;
  }

  /** The example listing title "DOCTOR PRICE（ドクタープライス）" keeps only
      its Latin part. */
  lemma DoctorPriceTitle(latin: string, reading: string)
    requires latin == "DOCTOR PRICE" && reading == "ドクタープライス"
    ensures PreferLatinTitle(latin + ['（'] + reading + ['）']) == latin
  {
    assert IsAsciiLetter(latin[0]);
    PreferLatinDropsReading(latin, '（', reading, '）');
  }

  /** A bracket group inside a Latin title, with the whitespace around it,
      becomes one space between the text before and the text after it. */
  lemma PreferLatinJoinsAroundReading(a: string, w1: string, o: char, r: string, c: char,
                                      w2: string, b: string)
    requires a != [] && IsStripped(a) && HasAsciiLetter(a) && NoOpener(a)
    requires AllSpace(w1) && AllSpace(w2)
    requires IsOpener(o) && NoCloser(r) && IsCloser(c)
    requires b != [] && IsStripped(b) && NoCloser(b)
    ensures PreferLatinTitle(a + (w1 + [o] + r + [c] + w2 + b)) == a + ([' '] + b)
  {
    var g := w1 + [o] + r + [c] + w2 + b;
    var s := a + g;
    assert s[0] == a[0] && s[|s| - 1] == g[|g| - 1] == b[|b| - 1];
    assert HasAsciiLetter(s) by {
      var i :| 0 <= i < |a| && IsAsciiLetter(a[i]);
      assert s[i] == a[i];
    }
    var res := a + ([' '] + b);
    calc {
      PreferLatinTitle(s);
      { PreferLatinOfOpenEnd(s); }
      Strip(ReplaceReadings(s));
      { ReplaceReadingAfter(a, w1, o, r, c, w2, b); ReplaceReadingsOfNoGroup(b); }
      Strip(res);
      { assert res[0] == a[0] && res[|res| - 1] == b[|b| - 1]; StripOfStripped(res); }
      res;
    }
  }

  /** A stripped Latin title that does not end in a closer goes through the
      second substitution only. */
  lemma PreferLatinOfOpenEnd(s: string)
    requires IsStripped(s) && s != [] && HasAsciiLetter(s) && !IsCloser(s[|s| - 1])
    ensures PreferLatinTitle(s) == Strip(ReplaceReadings(s))
  {
    PreferLatinOfStripped(s);
    RemoveTrailingReadingOfOpenEnd(s);
    StripOfStripped(s);
  }

  /** "A（x）B" gives "A B". */
  lemma ReadingBetweenWords(s: string)
    requires s == "A（x）B"
    ensures PreferLatinTitle(s) == "A B"
  {
    var a, r, b := "A", "x", "B";
    assert s == a + ([] + ['（'] + r + ['）'] + [] + b);
    assert IsAsciiLetter(a[0]);
    PreferLatinJoinsAroundReading(a, [], '（', r, '）', [], b);
  }
}
